=== FILE: README.md ===
# European restaurant reviews: keyword tagging and chart filtering, in Dafny

The reviews app reads a file of restaurant reviews, scores every review
title for sentiment (polarity) and subjectivity, and tags each review with
every keyword of a fixed list of six that its body contains, ignoring case.
One record `{keyword, subjectivity, calc_sentiment}` is produced per
(keyword, review) pair, keyword by keyword. A chart callback then keeps the
records whose keyword the user selected, falls back to the first two
keywords when nothing is selected, plots the chosen score column, titles
the chart after it, and colours each keyword by its position in the list.

This project models that pipeline as pure functions over sequences:

- `wrappers.dfy` (`Wrappers`): `Option` for a missing review body, `Result`
  for the errors the callback raises.
- `sequences.dfy` (`Sequences`): order-preserving selection (`Select`, a
  boolean mask over a table) and `Map`, with the lemmas the rest relies on.
- `text.dfy` (`Text`): ASCII lower-casing and a left-to-right substring
  search, proved equal to "the word occurs at some position".
- `tagger.dfy` (`Tagger`): reviews, scored rows, tagged records, the
  keyword list, scoring through an oracle, the tagging function `Tag`, the
  nested loop `TagLoop` that builds it, and the tagging properties.
- `graph.dfy` (`Graph`): the callback `UpdateGraph`: fallback selection,
  `isin` filter, score column, title, colour map, and the filter properties.

The two score columns are floats that the pipeline only copies, so their
type is a parameter `S`. The sentiment library is passed in as two
functions of the title; the code calls the library twice per title, once
per column, and the two calls are the two functions. `str.contains(word,
case=False, na=False)` becomes plain substring search after ASCII
lower-casing of both sides. For the app's keyword list this is exact as
far as regular-expression syntax goes: `Tagger.WordListFacts` proves every
keyword is made of lower-case letters `a`-`z`, so none holds a
regular-expression metacharacter. Unicode case folding is not modelled
(see "Left out").

The callback hands the plot the whole filtered table with the chosen column
as `y`. The model returns the `(keyword, value)` points the plot is drawn
from, one per filtered record, in the table's order.

## Model

| member | source | states |
|---|---|---|
| `Tagger.ScoreReview` | app.py:10-11 | a scored row keeps the review's body; its sentiment is the polarity of the title and its subjectivity the subjectivity of the title |
| `Tagger.Score` | app.py:10-11 | one scored row per review, in order; bodies pass through; both scores come from the title only |
| `Tagger.ScoresFollowTitle` | app.py:10-11 | two reviews with the same title get the same scores, whatever their bodies |
| `Tagger.WordListFacts` | app.py:14 | the keyword list has six distinct keywords of lower-case letters only, so lower-casing leaves them unchanged |
| `Text.Lower` | app.py:19 | lower-casing keeps the length, turns every ASCII capital into its own lower-case letter (32 code points on), and changes no other character |
| `Text.SearchFrom` | app.py:19 | the scan answers true exactly when the word occurs at some position at or after the start position |
| `Text.Contains` | app.py:19 | plain containment is true exactly when the word occurs somewhere in the text |
| `Text.ContainsIgnoringCase` | app.py:19 | `case=False` containment is true exactly when the lower-cased word occurs in the lower-cased text |
| `Text.EmptyWordAlwaysFound` | app.py:19 | the empty word is found in every text |
| `Text.LongerWordNeverFound` | app.py:19 | a word longer than the text is never found |
| `Text.CaseDoesNotMatter` | app.py:19 | lower-casing the text or the word first does not change whether the word is found |
| `Text.FoundInPartFoundInWhole` | app.py:19 | a word found in a piece of a body is found in the whole body |
| `Text.FoundInItself` | app.py:19 | every word is found in a body equal to it |
| `Sequences.SelectCount` | app.py:67 | a boolean mask keeps each element it accepts as many times as it occurs, and drops the others entirely |
| `Tagger.MatchesMeaning` | app.py:19 | the row mask holds exactly when the row has a body and the lower-cased keyword occurs in the lower-cased body; a missing body never matches |
| `Tagger.StampOfReview` | app.py:20 | the record stamped for a scored review carries the keyword and the polarity and subjectivity of that review's title |
| `Tagger.Hits` | app.py:19-20 | a keyword has no more records than there are rows, and all of them carry that keyword |
| `Tagger.HitsSnoc` | app.py:19-20 | appending a row to the table appends exactly that row's record (the keyword with the row's two scores) when its body contains the keyword, and nothing otherwise; so a keyword's records follow row order, one per matching row |
| `Tagger.HitsMembers` | app.py:19-20 | a record is among a keyword's records exactly when it carries the keyword and both scores of some row whose body contains the keyword |
| `Tagger.Tag` | app.py:17-20 | every tagged record's keyword is in the keyword list |
| `Tagger.KeywordsIn` | app.py:18-19 | the keywords a row matches are list keywords its body contains, every such keyword is among them, and each occurs as often as in the list (so once, for a list without repeats) |
| `Tagger.TagLoop` | app.py:17-20 | the outer loop over keywords, appending each keyword's records in turn, builds exactly the tagged data set `Tag` |
| `Tagger.HitsLoop` | app.py:18-20 | the inner loop over rows, appending one record per row whose body contains the keyword, builds exactly that keyword's records `Hits` |
| `Tagger.TagMembers` | app.py:18-20 | a record is tagged exactly when its keyword is in the list and it carries that keyword and both scores of some row whose body contains the keyword; a missing body never matches |
| `Tagger.FanOut` | app.py:18-20 | one row on its own yields one record per keyword its body contains, in list order, with its scores; so at most as many records as keywords |
| `Tagger.ByRowSameRecords` | app.py:17-20 | the keyword-major loop and a review-at-a-time pass produce the same multiset of records |
| `Tagger.TagAppend` | app.py:18-20 | tagging with two keyword lists in turn is tagging with their concatenation |
| `Tagger.KeywordMajorOrder` | app.py:18-20 | with distinct keywords, no record comes after a record of a keyword later in the list |
| `Tagger.ExampleTwoKeywords` | app.py:18-20 | "Delicious food but overpriced drinks" with keywords delicious and overpriced gives two records carrying the review's scores |
| `Tagger.ExampleNoKeyword` | app.py:18-20 | "Terrible wait" with keyword delicious gives no record |
| `Graph.EffectiveSelection` | app.py:63-64 | a non-empty selection is used as given; an empty or absent one becomes the first two keywords; the result is never empty for a non-empty list |
| `Graph.Filter` | app.py:67 | the kept records are data records whose keyword is selected, and every data record whose keyword is selected is kept as many times as it occurs in the data, so equal records are all plotted |
| `Graph.FilterTag` | app.py:67 | filtering the tagged data set by a selection equals tagging with only the selected keywords in list order, so order is preserved |
| `Graph.UnknownKeywordsIgnored` | app.py:67 | selected keywords outside the list change nothing and raise nothing |
| `Graph.OneKeywordInRowOrder` | app.py:67 | with distinct keywords, the records of one keyword are its matching rows in row order; an unknown keyword has none |
| `Graph.EmptySelectionSameChart` | app.py:63-64 | for any records and any keyword list, an empty or absent selection gives the same chart (or error) as selecting the first two keywords, or all of them when there are fewer |
| `Graph.EmptySelectionFallback` | app.py:63-67 | with distinct keywords, an empty or absent selection shows exactly the records of the first two keywords, or of all keywords when the list is shorter |
| `Graph.AppDefaultView` | app.py:63-67 | for the app's list, the default view shows exactly the records of "disgusting" and "delicious" |
| `Graph.ColorIndices` | app.py:70 | every keyword gets a palette position; the position of a keyword points back to it, and is its last position in the list |
| `Graph.ColorIndexIsPosition` | app.py:70 | with distinct keywords, keyword `i` gets palette position `i` |
| `Graph.ColorMap` | app.py:70 | the colour map exists exactly when the list fits the 10-colour palette; then every keyword of the list gets a position, that position is inside the palette and points back to the keyword, and it is the keyword's last position in the list |
| `Graph.AppColors` | app.py:70 | the app's six keywords fit the palette, each at its own position |
| `Graph.ColumnNamed` | app.py:45-46 | "calc_sentiment" names the sentiment column and "subjectivity" the subjectivity column |
| `Graph.ValueOfFeature` | app.py:75 | the plotted value of a record is its sentiment when the feature is "calc_sentiment" and its subjectivity when it is "subjectivity", the only two feature values that name a column |
| `Graph.Title` | app.py:76 | the title starts with "Sentiment" exactly when the feature is "calc_sentiment", and with "Subjectivity" otherwise |
| `Graph.UpdateGraph` | app.py:62-82 | the callback succeeds exactly when there are records, the list fits the palette and the feature names a column; otherwise it fails with the first error the code hits (no 'keyword' column, palette too small, unknown feature); on success point `k` is filtered record `k`'s keyword and chosen score, every point's keyword is selected, the title starts with "Sentiment" for the sentiment feature and with "Subjectivity" otherwise, and the colour map does not depend on the selection |
| `Graph.ChartPointsComeFromRows` | app.py:67-76 | every plotted point of the tagged data is the chosen score of some review whose body contains the point's keyword |

## Left out

- Loading the CSV file (app.py:7): file I/O. Reviews arrive as a sequence of `Review` values.
- The sentiment library (app.py:10-11): a foreign library returning floats. It is modelled as two functions of the title passed in as parameters. Its score ranges are not modelled.
- A missing or non-text title: the library would fail on it. Titles are modelled as strings, and the code has no path for a title the library rejects, so the model has none either.
- Regular-expression semantics of `str.contains`: plain substring search is used. This is exact for keywords without metacharacters, which covers the app's list.
- Unicode case folding: the code's ignore-case search also treats characters such as U+017F (long s) as matching `s`, and U+0130 and U+0131 (dotted and dotless I) as matching `i`. The model lower-cases ASCII only, so such a body matches no keyword in the model.
- A 'Review' column with no text at all: pandas gives such a column a numeric type, and `.str.contains` then raises at app.py:19 before the app starts. The model treats it as a table in which no row matches, which leads to the empty-table error of `Graph.UpdateGraph`.
- Building the data frame from the record list (app.py:22): the record sequence is the table. The only effect of its shape that is modelled is the missing 'keyword' column of a table built from no records.
- The Dash layout, widgets and callback wiring (app.py:25-61) and `app.run_server` (app.py:85-86): UI only. The widget defaults are what `EffectiveSelection(None, …)` and the feature value "calc_sentiment" give.
- Box-plot rendering, axis labels and template (app.py:72-81): the model stops at the chart's points, title and colour positions. The palette's colour strings are not modelled, only the positions into it and its size of 10.
- Graph.UpdateGraph: a feature value other than the two radio values fails with `UnknownFeature`. The plot would also accept the table's 'keyword' column as `y`; that case is not modelled.

=== FILE: graph.dfy ===
/** The chart callback of the reviews app (`update_graph`, app.py lines
    62-82): fall back to the first two keywords when nothing is selected,
    keep the tagged records whose keyword is selected, pick the score column
    and the title from the chosen feature, and colour each keyword by its
    position in the keyword list. Drawing the box plot itself is not
    modelled; the callback's result is the data the plot is drawn from. */
module Graph {
  import opened Wrappers
  import opened Sequences
  import opened Tagger

  /** The number of colours in plotly's qualitative 'Plotly' palette. */
  const PaletteSize: nat := 10

  /** How many keywords an empty selection falls back to. */
  const DefaultCount: nat := 2

  /** The two values of the feature radio buttons, each naming a score column. */
  datatype Column = CalcSentiment | Subjectivity

  /** The score column a feature value names, if it names one. */
  function ColumnNamed(name: string): (c: Option<Column>)
    ensures c == Some(CalcSentiment) <==> name == "calc_sentiment"
    ensures c == Some(Subjectivity) <==> name == "subjectivity"
  {
    if name == "calc_sentiment" then Some(CalcSentiment)
    else if name == "subjectivity" then Some(Subjectivity)
    else None
  }

  /** The value a record holds in the chosen column. */
  function Value<S>(rec: Record<S>, col: Column): S {
    match col
    case CalcSentiment => rec.sentiment
    case Subjectivity => rec.subjectivity
  }

  /** The value plotted for a record is the column the feature names:
      "calc_sentiment" plots the sentiment and "subjectivity" the subjectivity. */
  lemma ValueOfFeature<S>(rec: Record<S>, feature: string)
    requires ColumnNamed(feature).Some?
    ensures Value(rec, ColumnNamed(feature).value) ==
      if feature == "calc_sentiment" then rec.sentiment else rec.subjectivity
    ensures feature != "calc_sentiment" ==> feature == "subjectivity"
  {
  }

  /** What the callback raises instead of returning a figure. */
  datatype GraphError =
    | MissingKeywordColumn          // KeyError: a table built from no records has no 'keyword' column
    | PaletteExhausted              // IndexError: more keywords than palette colours
    | UnknownFeature(name: string)  // ValueError: the feature names no score column

  /** One plotted observation: its group (the keyword) and its y value. */
  datatype Point<S> = Point(keyword: string, value: S)

  /** The data a figure is drawn from: the points, the title and the
      keyword-to-palette-position map. */
  datatype Chart<S> = Chart(points: seq<Point<S>>, title: string, colors: map<string, nat>)

  /** `word_list[:2]`: the first two keywords, or the whole list when it is
      shorter. */
  function DefaultSelection(words: seq<string>): (first: seq<string>)
    ensures |first| <= DefaultCount && |first| <= |words| && first == words[..|first|]
    ensures |first| == DefaultCount || first == words
  {
    words[..if |words| < DefaultCount then |words| else DefaultCount]
  }

  /** The selection actually used: the user's when it is non-empty, the
      first two keywords (or fewer, if the list is shorter) otherwise. A
      cleared control may send no list at all (`None`), which counts as empty. */
  function EffectiveSelection(selected: Option<seq<string>>, words: seq<string>): (sel: seq<string>)
    ensures selected.Some? && |selected.value| > 0 ==> sel == selected.value
    ensures |words| > 0 ==> |sel| > 0
    ensures (selected.None? || |selected.value| == 0) ==> sel == DefaultSelection(words)
  {
    if selected.Some? && |selected.value| > 0 then selected.value
    else DefaultSelection(words)
  }

  /** Membership in a keyword list, as a mask over keywords. */
  function Selected(sel: seq<string>): string -> bool {
    w => w in sel
  }

  /** Membership of a record's keyword in a keyword list, as a mask over records. */
  function KeywordIn<S>(sel: seq<string>): Record<S> -> bool {
    (rec: Record<S>) => rec.keyword in sel
  }

  /** `filtered_df[filtered_df["keyword"].isin(sel)]`: the records whose
      keyword is in the selection, in their original order. */
  function Filter<S>(data: seq<Record<S>>, sel: seq<string>): (kept: seq<Record<S>>)
    ensures |kept| <= |data|
    ensures forall k :: 0 <= k < |kept| ==> kept[k].keyword in sel && kept[k] in data
    ensures forall k :: 0 <= k < |data| && data[k].keyword in sel ==> data[k] in kept
    ensures forall k :: 0 <= k < |data| && data[k].keyword in sel ==> multiset(kept)[data[k]] == multiset(data)[data[k]]
  {
    SelectCounts(data, KeywordIn(sel));
    Select(data, KeywordIn(sel))
  }

  /** The colour map as palette positions: each keyword gets its position in
      the list. A keyword listed twice keeps its last position, since the
      dictionary comprehension overwrites earlier entries. */
  function ColorIndices(words: seq<string>): (m: map<string, nat>)
    ensures forall k :: 0 <= k < |words| ==> words[k] in m && k <= m[words[k]]
    ensures forall w :: w in m ==> m[w] < |words| && words[m[w]] == w
  {
    if |words| == 0 then map[]
    else
      var last := |words| - 1;
      var init := words[..last];
      var m := ColorIndices(init);
      assert forall k :: 0 <= k < last ==> init[k] == words[k];
      m[words[last] := last]
  }

  /** The colour map of the callback: it fails when the keyword list is
      longer than the palette, because the palette is indexed by position. */
  function ColorMap(words: seq<string>): (r: Result<map<string, nat>, GraphError>)
    ensures r.Success? <==> |words| <= PaletteSize
    ensures r.Failure? ==> r.error == PaletteExhausted
    ensures r.Success? ==> forall w :: w in r.value ==> w in words && r.value[w] < PaletteSize
    ensures r.Success? ==> forall k :: 0 <= k < |words| ==> words[k] in r.value && k <= r.value[words[k]]
    ensures r.Success? ==> forall w :: w in r.value ==> r.value[w] < |words| && words[r.value[w]] == w
  {
    if |words| <= PaletteSize then Success(ColorIndices(words)) else Failure(PaletteExhausted)
  }

  /** The figure title: "Sentiment ..." for the sentiment column, and
      "Subjectivity ..." for every other feature value. */
  function Title(feature: string): (t: string)
    ensures |t| >= 12
    ensures t[..9] == "Sentiment" <==> feature == "calc_sentiment"
    ensures t[..12] == "Subjectivity" <==> feature != "calc_sentiment"
  {
    var prefix := if feature == "calc_sentiment" then "Sentiment" else "Subjectivity";
    var t := prefix + " Distribution by Keyword";
    assert t[..|prefix|] == prefix;
    assert t[1] == prefix[1];
    assert "Sentiment"[1] != "Subjectivity"[1];
    t
  }

  /** A record as a plotted point of the chosen column. */
  function PointOf<S>(col: Column): Record<S> -> Point<S> {
    (rec: Record<S>) => Point(rec.keyword, Value(rec, col))
  }

  /** The callback: from the tagged records, the selection and the feature
      to the chart data, or to the error the callback raises. The checks run
      in the callback's order: the keyword filter, then the colour map, then
      the plot's choice of column. */
  function UpdateGraph<S>(data: seq<Record<S>>, selected: Option<seq<string>>, feature: string, words: seq<string>)
    : (r: Result<Chart<S>, GraphError>)
    ensures r.Success? <==> |data| > 0 && |words| <= PaletteSize && ColumnNamed(feature).Some?
    ensures |data| == 0 ==> r == Failure(MissingKeywordColumn)
    ensures |data| > 0 && |words| > PaletteSize ==> r == Failure(PaletteExhausted)
    ensures |data| > 0 && |words| <= PaletteSize && ColumnNamed(feature).None? ==> r == Failure(UnknownFeature(feature))
    ensures r.Success? ==>
      var kept := Filter(data, EffectiveSelection(selected, words));
      |r.value.title| >= 12 &&
      |r.value.points| == |kept| &&
      (forall k :: 0 <= k < |r.value.points| ==>
        r.value.points[k].keyword == kept[k].keyword &&
        r.value.points[k].keyword in EffectiveSelection(selected, words) &&
        r.value.points[k].value == Value(kept[k], ColumnNamed(feature).value)) &&
      (r.value.title[..9] == "Sentiment" <==> feature == "calc_sentiment") &&
      (r.value.title[..12] == "Subjectivity" <==> feature != "calc_sentiment") &&
      r.value.colors == ColorIndices(words)
  {
    if |data| == 0 then Failure(MissingKeywordColumn)
    else
      var kept := Filter(data, EffectiveSelection(selected, words));
      match ColorMap(words)
      case Failure(e) => Failure(e)
      case Success(colors) =>
        match ColumnNamed(feature)
        case None => Failure(UnknownFeature(feature))
        case Some(col) => Success(Chart(Map(kept, PointOf(col)), Title(feature), colors))
  }

  /** Filtering the records of one keyword keeps all of them or none. */
  lemma FilterHits<S>(w: string, rows: seq<Row<S>>, sel: seq<string>)
    ensures Filter(Hits(w, rows), sel) == if w in sel then Hits(w, rows) else []
  {
    var hits := Hits(w, rows);
    if w in sel {
      SelectAll(hits, KeywordIn(sel));
    } else {
      SelectNone(hits, KeywordIn(sel));
    }
  }

  /** Filtering the tagged data set by a selection is tagging with only the
      selected keywords, kept in keyword-list order: the filter keeps whole
      keyword blocks and drops the others. */
  lemma {:induction false} FilterTag<S>(words: seq<string>, rows: seq<Row<S>>, sel: seq<string>)
    ensures Filter(Tag(words, rows), sel) == Tag(Select(words, Selected(sel)), rows)
  {
    if |words| > 0 {
      var w := words[0];
      var head := Hits(w, rows);
      var rest := Tag(words[1..], rows);
      assert Tag(words, rows) == head + rest;
      SelectAppend(head, rest, KeywordIn(sel));
      FilterHits(w, rows, sel);
      FilterTag(words[1..], rows, sel);
      var first := if w in sel then [w] else [];
      var chosen := Select(words[1..], Selected(sel));
      assert Select(words, Selected(sel)) == first + chosen;
      TagAppend(first, chosen, rows);
      assert Tag(first, rows) == if w in sel then head else [] by {
        if w in sel {
          assert first[1..] == [];
        }
      }
    }
  }

  /** Selected keywords that are not in the keyword list change nothing:
      filtering by a selection is filtering by its known keywords only. */
  lemma UnknownKeywordsIgnored<S>(words: seq<string>, rows: seq<Row<S>>, sel: seq<string>)
    ensures Filter(Tag(words, rows), sel) == Filter(Tag(words, rows), Select(sel, Selected(words)))
  {
    var known := Select(sel, Selected(words));
    forall k | 0 <= k < |words|
      ensures Selected(sel)(words[k]) == Selected(known)(words[k])
    {
      if words[k] in sel {
        var j :| 0 <= j < |sel| && sel[j] == words[k];
        assert Selected(words)(sel[j]);
      }
    }
    SelectCongruent(words, Selected(sel), Selected(known));
    FilterTag(words, rows, sel);
    FilterTag(words, rows, known);
  }

  /** A list none of whose keywords is selected loses all of them. */
  lemma SelectAbsent(s: seq<string>, sel: seq<string>)
    requires forall k :: 0 <= k < |s| ==> s[k] !in sel
    ensures Select(s, Selected(sel)) == []
  {
    assert forall k :: 0 <= k < |s| ==> !Selected(sel)(s[k]);
    SelectNone(s, Selected(sel));
  }

  /** A list selected by membership in itself is kept whole. */
  lemma SelectItself(s: seq<string>)
    ensures Select(s, Selected(s)) == s
  {
    assert forall k :: 0 <= k < |s| ==> Selected(s)(s[k]);
    SelectAll(s, Selected(s));
  }

  /** In a list of distinct keywords, no keyword after position `n` occurs before it. */
  lemma DistinctSplit(words: seq<string>, n: nat)
    requires Distinct(words) && n <= |words|
    ensures forall k :: 0 <= k < |words[n..]| ==> words[n..][k] !in words[..n]
  {
    forall k | 0 <= k < |words[n..]|
      ensures words[n..][k] !in words[..n]
    {
      assert words[n..][k] == words[n + k];
      assert forall j :: 0 <= j < n ==> words[..n][j] == words[j];
    }
  }

  /** In a list of distinct keywords, selecting by membership in a prefix of
      the list gives back that prefix. */
  lemma SelectPrefix(words: seq<string>, n: nat)
    requires Distinct(words) && n <= |words|
    ensures Select(words, Selected(words[..n])) == words[..n]
  {
    assert words == words[..n] + words[n..];
    SelectAppend(words[..n], words[n..], Selected(words[..n]));
    SelectItself(words[..n]);
    DistinctSplit(words, n);
    SelectAbsent(words[n..], words[..n]);
  }

  /** With an empty (or absent) selection the chart, or the error, is the
      one for selecting the first two keywords (all of them, if there are
      fewer), whatever the records. */
  lemma EmptySelectionSameChart<S>(data: seq<Record<S>>, words: seq<string>, feature: string)
    ensures UpdateGraph(data, Some([]), feature, words) == UpdateGraph(data, Some(DefaultSelection(words)), feature, words)
    ensures UpdateGraph(data, None, feature, words) == UpdateGraph(data, Some(DefaultSelection(words)), feature, words)
  {
  }

  /** With an empty (or absent) selection and distinct keywords, the chart
      shows exactly the records of the first two keywords (of all of them,
      when the list is shorter). */
  lemma EmptySelectionFallback<S>(words: seq<string>, rows: seq<Row<S>>)
    requires Distinct(words)
    ensures Filter(Tag(words, rows), EffectiveSelection(None, words)) == Tag(DefaultSelection(words), rows)
    ensures Filter(Tag(words, rows), EffectiveSelection(Some([]), words)) == Tag(DefaultSelection(words), rows)
  {
    var n := |DefaultSelection(words)|;
    FilterTag(words, rows, words[..n]);
    SelectPrefix(words, n);
  }

  /** Selecting by `[w]` from a list holding `w` once keeps just `w`. */
  lemma SelectAroundOne(before: seq<string>, w: string, after: seq<string>)
    requires forall k :: 0 <= k < |before| ==> before[k] !in [w]
    requires forall k :: 0 <= k < |after| ==> after[k] !in [w]
    ensures Select(before + [w] + after, Selected([w])) == [w]
  {
    SelectAppend(before + [w], after, Selected([w]));
    SelectAppend(before, [w], Selected([w]));
    SelectAbsent(before, [w]);
    SelectAbsent(after, [w]);
    SelectSingleton(w, Selected([w]));
  }

  /** In a list of distinct keywords, selecting by membership in `[w]`
      gives `[w]` when `w` is listed and nothing otherwise. */
  lemma SelectOne(words: seq<string>, w: string)
    requires Distinct(words)
    ensures Select(words, Selected([w])) == if w in words then [w] else []
  {
    if w in words {
      var i := Rank(words, w);
      var before, after := words[..i], words[i + 1..];
      assert words == before + [w] + after;
      assert forall k :: 0 <= k < |before| ==> before[k] == words[k];
      DistinctSplit(words, i + 1);
      assert words[..i + 1] == before + [w];
      SelectAroundOne(before, w, after);
    } else {
      SelectAbsent(words, [w]);
    }
  }

  /** The records of one keyword in the filtered data set are the rows whose
      body contains it, in row order; a keyword outside the list has none. */
  lemma OneKeywordInRowOrder<S>(words: seq<string>, rows: seq<Row<S>>, w: string)
    requires Distinct(words)
    ensures Filter(Tag(words, rows), [w]) == if w in words then Hits(w, rows) else []
  {
    FilterTag(words, rows, [w]);
    SelectOne(words, w);
    assert [w][1..] == [];
  }

  /** End to end: every point of a chart drawn from the tagged data set is
      the chosen score of some review whose body contains the point's
      keyword, and that keyword is one of the list's. */
  lemma ChartPointsComeFromRows<S>(words: seq<string>, rows: seq<Row<S>>, selected: Option<seq<string>>, feature: string)
    requires |Tag(words, rows)| > 0 && |words| <= PaletteSize && ColumnNamed(feature).Some?
    ensures var chart := UpdateGraph(Tag(words, rows), selected, feature, words).value;
      var col := ColumnNamed(feature).value;
      forall k :: 0 <= k < |chart.points| ==>
        chart.points[k].keyword in words &&
        exists row :: row in rows && Matches(chart.points[k].keyword, row) &&
          chart.points[k].value == (if col == CalcSentiment then row.sentiment else row.subjectivity)
  {
    var data := Tag(words, rows);
    var kept := Filter(data, EffectiveSelection(selected, words));
    var col := ColumnNamed(feature).value;
    var points := UpdateGraph(data, selected, feature, words).value.points;
    assert points == Map(kept, PointOf(col));
    forall k | 0 <= k < |points|
      ensures points[k].keyword in words &&
        exists row :: row in rows && Matches(points[k].keyword, row) &&
          points[k].value == (if col == CalcSentiment then row.sentiment else row.subjectivity)
    {
      var rec := kept[k];
      assert rec in data;
      assert points[k] == Point(rec.keyword, Value(rec, col));
      TagMembers(words, rows, rec);
      var row :| row in rows && Matches(rec.keyword, row) && rec == Stamp(rec.keyword, row);
      assert points[k].value == (if col == CalcSentiment then row.sentiment else row.subjectivity);
    }
  }

  /** The app's own keyword list fits the palette and each keyword's
      colour is its position, so distinct keywords get distinct colours. */
  lemma AppColors()
    ensures ColorMap(WordList).Success?
    ensures forall i :: 0 <= i < |WordList| ==> ColorIndices(WordList)[WordList[i]] == i
  {
    WordListFacts();
    forall i | 0 <= i < |WordList|
      ensures ColorIndices(WordList)[WordList[i]] == i
    {
      ColorIndexIsPosition(WordList, i);
    }
  }

  /** The app's default view shows the records of "disgusting" and
      "delicious", the first two keywords. */
  lemma AppDefaultView<S>(rows: seq<Row<S>>)
    ensures Filter(Tag(WordList, rows), EffectiveSelection(None, WordList)) == Tag(["disgusting", "delicious"], rows)
  {
    WordListFacts();
    FilterTag(WordList, rows, WordList[..DefaultCount]);
    SelectPrefix(WordList, DefaultCount);
  }

  /** With distinct keywords the colour of a keyword is its position. */
  lemma ColorIndexIsPosition(words: seq<string>, i: nat)
    requires Distinct(words) && i < |words|
    ensures ColorIndices(words)[words[i]] == i
  {
  }
}

=== FILE: sequences.dfy ===
/** Order-preserving selection and element-wise mapping over sequences: the
    two shapes every data-frame step of the pipeline reduces to (a boolean
    mask applied to the rows, and a column built row by row). */
module Sequences {

  /** The elements of `s` that satisfy `keep`, in their original order
      (a boolean mask applied to a data frame). */
  function Select<T>(s: seq<T>, keep: T -> bool): (r: seq<T>)
    ensures |r| <= |s|
    ensures forall k :: 0 <= k < |r| ==> keep(r[k]) && r[k] in s
    ensures forall k :: 0 <= k < |s| && keep(s[k]) ==> s[k] in r
  {
    if |s| == 0 then []
    else (if keep(s[0]) then [s[0]] else []) + Select(s[1..], keep)
  }

  /** `f` applied to every element of `s`. */
  function Map<A, B>(s: seq<A>, f: A -> B): (r: seq<B>)
    ensures |r| == |s|
    ensures forall k :: 0 <= k < |s| ==> r[k] == f(s[k])
  {
    seq(|s|, k requires 0 <= k < |s| => f(s[k]))
  }

  /** Selection distributes over concatenation: masking a table is the same
      as masking its two halves and stacking the results. */
  lemma {:induction false} SelectAppend<T>(a: seq<T>, b: seq<T>, keep: T -> bool)
    ensures Select(a + b, keep) == Select(a, keep) + Select(b, keep)
  {
    if |a| == 0 {
      assert a + b == b;
    } else {
      assert (a + b)[0] == a[0];
      assert (a + b)[1..] == a[1..] + b;
      SelectAppend(a[1..], b, keep);
    }
  }

  /** Selection keeps duplicates: an element the mask keeps occurs in the
      result as often as in `s`, and one it drops does not occur at all. */
  lemma {:induction false} SelectCount<T>(s: seq<T>, keep: T -> bool, x: T)
    ensures multiset(Select(s, keep))[x] == if keep(x) then multiset(s)[x] else 0
  {
    if |s| > 0 {
      assert s == [s[0]] + s[1..];
      SelectCount(s[1..], keep, x);
    }
  }

  /** `SelectCount` for every element at once. */
  lemma SelectCounts<T>(s: seq<T>, keep: T -> bool)
    ensures forall x :: multiset(Select(s, keep))[x] == if keep(x) then multiset(s)[x] else 0
  {
    forall x {
      SelectCount(s, keep, x);
    }
  }

  /** Selecting from a one-element sequence keeps it or drops it. */
  lemma SelectSingleton<T>(x: T, keep: T -> bool)
    ensures Select([x], keep) == if keep(x) then [x] else []
  {
    assert [x][1..] == [];
  }

  /** Two masks that agree on every element of `s` select the same elements. */
  lemma {:induction false} SelectCongruent<T>(s: seq<T>, p: T -> bool, q: T -> bool)
    requires forall k :: 0 <= k < |s| ==> p(s[k]) == q(s[k])
    ensures Select(s, p) == Select(s, q)
  {
    if |s| > 0 {
      assert forall k :: 0 <= k < |s[1..]| ==> s[1..][k] == s[k + 1];
      SelectCongruent(s[1..], p, q);
    }
  }

  /** A mask that keeps every element of `s` leaves `s` unchanged. */
  lemma {:induction false} SelectAll<T>(s: seq<T>, keep: T -> bool)
    requires forall k :: 0 <= k < |s| ==> keep(s[k])
    ensures Select(s, keep) == s
  {
    if |s| > 0 {
      assert forall k :: 0 <= k < |s[1..]| ==> s[1..][k] == s[k + 1];
      SelectAll(s[1..], keep);
    }
  }

  /** A mask that keeps no element of `s` empties it. */
  lemma {:induction false} SelectNone<T>(s: seq<T>, keep: T -> bool)
    requires forall k :: 0 <= k < |s| ==> !keep(s[k])
    ensures Select(s, keep) == []
  {
    if |s| > 0 {
      assert forall k :: 0 <= k < |s[1..]| ==> s[1..][k] == s[k + 1];
      SelectNone(s[1..], keep);
    }
  }

  /** Mapping distributes over concatenation. */
  lemma MapAppend<A, B>(a: seq<A>, b: seq<A>, f: A -> B)
    ensures Map(a + b, f) == Map(a, f) + Map(b, f)
  {
  }

  /** A prefix one element longer is the prefix followed by that element. */
  lemma TakeOneMore<T>(s: seq<T>, i: nat)
    requires i < |s|
    ensures s[..i + 1] == s[..i] + [s[i]]
  {
  }

  /** Elements of a sequence are pairwise different. */
  predicate Distinct<T(==)>(s: seq<T>) {
    forall i, j :: 0 <= i < j < |s| ==> s[i] != s[j]
  }
}

=== FILE: tagger.dfy ===
/** The data-preparation half of the reviews app: scoring every review from
    its title (app.py lines 10-11) and tagging it with every keyword of the
    fixed keyword list that its body contains (app.py lines 14-20).

    The two score columns are floating-point numbers the tagger only copies,
    so their type is the parameter `S`. */
module Tagger {
  import opened Wrappers
  import opened Sequences
  import opened Text

  /** One line of the reviews file: its 'Review Title' and its 'Review' body.
      A body the file leaves empty (NaN in the data frame) is `None`. */
  datatype Review = Review(title: string, body: Option<string>)

  /** A review after scoring: its body and the 'subjectivity' and
      'calc_sentiment' columns, both computed from the title. */
  datatype Row<S> = Row(body: Option<string>, subjectivity: S, sentiment: S)

  /** One tagged record: a keyword and the scores of a review whose body
      contains that keyword. */
  datatype Record<S> = Record(keyword: string, subjectivity: S, sentiment: S)

  /** The fixed, ordered keyword list of the app. */
  const WordList: seq<string> :=
    ["disgusting", "delicious", "overpriced", "wait", "service", "experience"]

  /** Scores of one review. The sentiment library is an oracle passed in as
      two functions of the title: `polarity` for the 'calc_sentiment' column
      and `subjectivity` for the 'subjectivity' column. The body is not scored. */
  function ScoreReview<S>(review: Review, polarity: string -> S, subjectivity: string -> S): (row: Row<S>)
    ensures row.body == review.body
    ensures row.sentiment == polarity(review.title)
    ensures row.subjectivity == subjectivity(review.title)
  {
    Row(review.body, subjectivity(review.title), polarity(review.title))
  }

  /** The scored data frame: one row per review, in file order. */
  function Score<S>(reviews: seq<Review>, polarity: string -> S, subjectivity: string -> S): (rows: seq<Row<S>>)
    ensures |rows| == |reviews|
    ensures forall k :: 0 <= k < |rows| ==> rows[k].body == reviews[k].body
    ensures forall k :: 0 <= k < |rows| ==>
      rows[k].sentiment == polarity(reviews[k].title) && rows[k].subjectivity == subjectivity(reviews[k].title)
  {
    Map(reviews, (review: Review) => ScoreReview(review, polarity, subjectivity))
  }

  /** Two reviews with the same title get the same scores, whatever their bodies. */
  lemma ScoresFollowTitle<S>(reviews: seq<Review>, polarity: string -> S, subjectivity: string -> S, i: nat, j: nat)
    requires i < |reviews| && j < |reviews|
    requires reviews[i].title == reviews[j].title
    ensures Score(reviews, polarity, subjectivity)[i].sentiment == Score(reviews, polarity, subjectivity)[j].sentiment
    ensures Score(reviews, polarity, subjectivity)[i].subjectivity == Score(reviews, polarity, subjectivity)[j].subjectivity
  {
  }

  /** The body of `row` contains `word`, ignoring case. A missing body
      contains nothing. */
  predicate Matches<S>(word: string, row: Row<S>) {
    row.body.Some? && ContainsIgnoringCase(row.body.value, word)
  }

  /** What the mask tests: a row matches a keyword exactly when it has a body
      and the lower-cased keyword occurs in the lower-cased body; a missing
      body (`na=False`) never matches. */
  lemma MatchesMeaning<S>(word: string, row: Row<S>)
    ensures row.body.None? ==> !Matches(word, row)
    ensures Matches(word, row) <==> row.body.Some? && IsSubstring(Lower(word), Lower(row.body.value))
  {
  }

  /** The row mask `df['Review'].str.contains(word, case=False, na=False)`. */
  function MatchesWord<S>(word: string): Row<S> -> bool {
    row => Matches(word, row)
  }

  /** The keywords mask for one row: which keywords its body contains. */
  function MatchedBy<S>(row: Row<S>): string -> bool {
    word => Matches(word, row)
  }

  /** The record emitted for `word` and `row`. */
  function Stamp<S>(word: string, row: Row<S>): Record<S> {
    Record(word, row.subjectivity, row.sentiment)
  }

  /** The record stamped for a scored review carries the keyword and the two
      scores of the review's title. */
  lemma StampOfReview<S>(word: string, review: Review, polarity: string -> S, subjectivity: string -> S)
    ensures var rec := Stamp(word, ScoreReview(review, polarity, subjectivity));
      rec.keyword == word && rec.sentiment == polarity(review.title) && rec.subjectivity == subjectivity(review.title)
  {
  }

  function StampWord<S>(word: string): Row<S> -> Record<S> {
    row => Stamp(word, row)
  }

  function StampRow<S>(row: Row<S>): string -> Record<S> {
    word => Stamp(word, row)
  }

  /** The records of one keyword: one per row whose body contains it, in row order. */
  function Hits<S>(word: string, rows: seq<Row<S>>): (hits: seq<Record<S>>)
    ensures |hits| <= |rows|
    ensures forall k :: 0 <= k < |hits| ==> hits[k].keyword == word
  {
    Map(Select(rows, MatchesWord(word)), StampWord(word))
  }

  /** The tagged data set: the records of the first keyword, then those of
      the second, and so on (the loop is keyword-major). */
  function Tag<S>(words: seq<string>, rows: seq<Row<S>>): (data: seq<Record<S>>)
    ensures forall k :: 0 <= k < |data| ==> data[k].keyword in words
  {
    if |words| == 0 then [] else Hits(words[0], rows) + Tag(words[1..], rows)
  }

  /** The keywords the body of `row` contains, in keyword-list order. */
  function KeywordsIn<S>(words: seq<string>, row: Row<S>): (found: seq<string>)
    ensures |found| <= |words|
    ensures forall k :: 0 <= k < |found| ==> found[k] in words && Matches(found[k], row)
    ensures forall k :: 0 <= k < |words| && Matches(words[k], row) ==> words[k] in found
    ensures forall w :: multiset(found)[w] == if Matches(w, row) then multiset(words)[w] else 0
  {
    SelectCounts(words, MatchedBy(row));
    Select(words, MatchedBy(row))
  }

  /** The nested loop of the app: for each keyword, for each row whose body
      contains it, append a record. It builds exactly the tagged data set. */
  method TagLoop<S>(words: seq<string>, rows: seq<Row<S>>) returns (data: seq<Record<S>>)
    ensures data == Tag(words, rows)
  {
    data := [];
    for i := 0 to |words|
      invariant data == Tag(words[..i], rows)
    {
      var hits := HitsLoop(words[i], rows);
      data := data + hits;
      assert data == Tag(words[..i + 1], rows) by {
        TakeOneMore(words, i);
        TagAppend(words[..i], [words[i]], rows);
        assert [words[i]][1..] == [];
      }
    }
    assert words[..|words|] == words;
  }

  /** The inner loop of the app, for one keyword: for each row whose body
      contains it, in row order, append a record. */
  method HitsLoop<S>(word: string, rows: seq<Row<S>>) returns (hits: seq<Record<S>>)
    ensures hits == Hits(word, rows)
  {
    hits := [];
    for j := 0 to |rows|
      invariant hits == Hits(word, rows[..j])
    {
      if Matches(word, rows[j]) {
        hits := hits + [Stamp(word, rows[j])];
      }
      assert hits == Hits(word, rows[..j + 1]) by {
        TakeOneMore(rows, j);
        HitsSnoc(word, rows[..j], rows[j]);
      }
    }
    assert rows[..|rows|] == rows;
  }

  /** Appending one row adds that row's record, if its body contains the keyword. */
  lemma HitsSnoc<S>(word: string, rows: seq<Row<S>>, row: Row<S>)
    ensures Hits(word, rows + [row]) ==
      Hits(word, rows) + (if Matches(word, row) then [Stamp(word, row)] else [])
  {
    SelectAppend(rows, [row], MatchesWord(word));
    SelectSingleton(row, MatchesWord(word));
    MapAppend(Select(rows, MatchesWord(word)), Select([row], MatchesWord(word)), StampWord(word));
  }

  /** Prepending one row puts that row's record, if any, first. */
  lemma HitsCons<S>(word: string, row: Row<S>, rows: seq<Row<S>>)
    ensures Hits(word, [row] + rows) == Hits(word, [row]) + Hits(word, rows)
  {
    SelectAppend([row], rows, MatchesWord(word));
    MapAppend(Select([row], MatchesWord(word)), Select(rows, MatchesWord(word)), StampWord(word));
  }

  /** Tagging with two keyword lists one after the other is tagging with their concatenation. */
  lemma {:induction false} TagAppend<S>(a: seq<string>, b: seq<string>, rows: seq<Row<S>>)
    ensures Tag(a + b, rows) == Tag(a, rows) + Tag(b, rows)
  {
    if |a| == 0 {
      assert a + b == b;
    } else {
      assert (a + b)[0] == a[0];
      assert (a + b)[1..] == a[1..] + b;
      TagAppend(a[1..], b, rows);
    }
  }

  /** Provenance, both directions: a record is in the tagged data set exactly
      when its keyword is in the keyword list and it carries the keyword and
      the two scores of some row whose body contains that keyword. */
  lemma {:induction false} TagMembers<S>(words: seq<string>, rows: seq<Row<S>>, rec: Record<S>)
    ensures rec in Tag(words, rows) <==>
      rec.keyword in words &&
      exists row :: row in rows && Matches(rec.keyword, row) && rec == Stamp(rec.keyword, row)
  {
    if |words| > 0 {
      var head, rest := Hits(words[0], rows), Tag(words[1..], rows);
      assert rec in Tag(words, rows) <==> rec in head || rec in rest by {
        assert Tag(words, rows) == head + rest;
      }
      assert rec.keyword in words <==> rec.keyword == words[0] || rec.keyword in words[1..] by {
        assert words == [words[0]] + words[1..];
      }
      TagMembers(words[1..], rows, rec);
      HitsMembers(words[0], rows, rec);
    }
  }

  /** Provenance for one keyword. */
  lemma HitsMembers<S>(word: string, rows: seq<Row<S>>, rec: Record<S>)
    ensures rec in Hits(word, rows) <==>
      rec.keyword == word &&
      exists row :: row in rows && Matches(word, row) && rec == Stamp(word, row)
  {
    var sel := Select(rows, MatchesWord(word));
    var hits := Hits(word, rows);
    if rec in hits {
      var k :| 0 <= k < |hits| && hits[k] == rec;
      assert MatchesWord(word)(sel[k]);
      assert sel[k] in rows && Matches(word, sel[k]) && rec == Stamp(word, sel[k]);
    }
    if rec.keyword == word && exists row :: row in rows && Matches(word, row) && rec == Stamp(word, row) {
      var row :| row in rows && Matches(word, row) && rec == Stamp(word, row);
      var j :| 0 <= j < |rows| && rows[j] == row;
      assert MatchesWord(word)(rows[j]);
      var k :| 0 <= k < |sel| && sel[k] == row;
      assert hits[k] == rec;
    }
  }

  /** Fan-out of one row: the records it yields on its own are one per
      keyword its body contains, in keyword-list order, with its scores; so
      there are at most as many as there are keywords. */
  lemma {:induction false} FanOut<S>(words: seq<string>, row: Row<S>)
    ensures Tag(words, [row]) == Map(KeywordsIn(words, row), StampRow(row))
    ensures |Tag(words, [row])| == |KeywordsIn(words, row)| <= |words|
  {
    if |words| > 0 {
      var w := words[0];
      var first := if Matches(w, row) then [w] else [];
      var later := KeywordsIn(words[1..], row);
      FanOut(words[1..], row);
      HitsOfOneRow(w, row);
      assert KeywordsIn(words, row) == first + later;
      MapAppend(first, later, StampRow(row));
      assert Hits(w, [row]) == Map(first, StampRow(row));
      assert Tag(words, [row]) == Hits(w, [row]) + Tag(words[1..], [row]);
    }
  }

  /** A one-row table yields the keyword's record exactly when the body contains it. */
  lemma HitsOfOneRow<S>(word: string, row: Row<S>)
    ensures Hits(word, [row]) == if Matches(word, row) then [Stamp(word, row)] else []
  {
    SelectSingleton(row, MatchesWord(word));
  }

  /** The same records, produced one review at a time: all keywords of the
      first row, then all keywords of the second, and so on. */
  function TagByRow<S>(words: seq<string>, rows: seq<Row<S>>): seq<Record<S>> {
    if |rows| == 0 then [] else Tag(words, [rows[0]]) + TagByRow(words, rows[1..])
  }

  /** Tagging a table whose first row is `row` yields that row's records plus
      the rest's, in a different order. */
  lemma {:induction false} TagConsRow<S>(words: seq<string>, row: Row<S>, rows: seq<Row<S>>)
    ensures multiset(Tag(words, [row] + rows)) == multiset(Tag(words, [row])) + multiset(Tag(words, rows))
  {
    if |words| > 0 {
      TagConsRow(words[1..], row, rows);
      HitsCons(words[0], row, rows);
    }
  }

  /** The keyword-major loop and the review-major pass produce the same
      records (as a multiset): the order of the loops changes only the order
      of the output. */
  lemma {:induction false} ByRowSameRecords<S>(words: seq<string>, rows: seq<Row<S>>)
    ensures multiset(Tag(words, rows)) == multiset(TagByRow(words, rows))
  {
    if |rows| == 0 {
      assert Tag(words, rows) == [] by { EmptyTable(words, rows); }
    } else {
      assert rows == [rows[0]] + rows[1..];
      TagConsRow(words, rows[0], rows[1..]);
      ByRowSameRecords(words, rows[1..]);
    }
  }

  /** An empty table yields no records. */
  lemma EmptyTable<S>(words: seq<string>, rows: seq<Row<S>>)
    requires |rows| == 0
    ensures Tag(words, rows) == []
  {
  }

  /** The position of the first occurrence of `w` in `words`. */
  function Rank(words: seq<string>, w: string): (i: nat)
    requires w in words
    ensures i < |words| && words[i] == w
    ensures forall j :: 0 <= j < i ==> words[j] != w
  {
    if words[0] == w then 0 else 1 + Rank(words[1..], w)
  }

  /** Keyword-major order: with distinct keywords, a record never follows a
      record of a keyword that comes later in the keyword list. */
  lemma {:induction false} KeywordMajorOrder<S>(words: seq<string>, rows: seq<Row<S>>, k1: nat, k2: nat)
    requires Distinct(words)
    requires k1 < k2 < |Tag(words, rows)|
    ensures Rank(words, Tag(words, rows)[k1].keyword) <= Rank(words, Tag(words, rows)[k2].keyword)
  {
    var data := Tag(words, rows);
    var head := Hits(words[0], rows);
    var rest := Tag(words[1..], rows);
    assert data == head + rest;
    if k1 >= |head| {
      var a, b := data[k1].keyword, data[k2].keyword;
      assert a == rest[k1 - |head|].keyword && b == rest[k2 - |head|].keyword;
      assert a in words[1..] && b in words[1..];
      RankOfTail(words, a);
      RankOfTail(words, b);
      KeywordMajorOrder(words[1..], rows, k1 - |head|, k2 - |head|);
    }
  }

  /** In a list of distinct keywords, a keyword of the tail sits one place
      further on in the whole list. */
  lemma RankOfTail(words: seq<string>, w: string)
    requires Distinct(words) && |words| > 0 && w in words[1..]
    ensures Distinct(words[1..])
    ensures Rank(words, w) == 1 + Rank(words[1..], w)
  {
    var j :| 0 <= j < |words[1..]| && words[1..][j] == w;
    assert words[j + 1] == w;
  }

  /** The keyword list is six distinct words of lower-case ASCII letters:
      lower-casing leaves them unchanged and none of them contains a regular
      expression metacharacter, so plain substring search finds exactly what
      a regular-expression search for them finds. */
  lemma WordListFacts()
    ensures |WordList| == 6
    ensures Distinct(WordList)
    ensures forall i, k :: 0 <= i < |WordList| && 0 <= k < |WordList[i]| ==> 'a' <= WordList[i][k] <= 'z'
    ensures forall i :: 0 <= i < |WordList| ==> Lower(WordList[i]) == WordList[i]
  {
  }

  /** A body naming two keywords, in different case, yields one record per
      keyword, each with the review's scores. */
  lemma ExampleTwoKeywords()
    ensures Tag(["delicious", "overpriced"], [Row(Some("Delicious food but overpriced drinks"), 0.6, 0.4)])
      == [Record("delicious", 0.6, 0.4), Record("overpriced", 0.6, 0.4)]
  {
    var row := Row(Some("Delicious food but overpriced drinks"), 0.6, 0.4);
    ExampleKeywordsFound();
    ExampleRecords();
    FanOut(["delicious", "overpriced"], row);
  }

  /** Both keywords of the example are found in its body. */
  lemma ExampleKeywordsFound()
    ensures KeywordsIn(["delicious", "overpriced"], Row(Some("Delicious food but overpriced drinks"), 0.6, 0.4))
      == ["delicious", "overpriced"]
  {
    var row := Row(Some("Delicious food but overpriced drinks"), 0.6, 0.4);
    var words := ["delicious", "overpriced"];
    ExampleBodyMatches();
    assert MatchedBy(row)(words[0]) && MatchedBy(row)(words[1]);
    SelectAll(words, MatchedBy(row));
  }

  /** The records the example's row stamps for its two keywords. */
  lemma ExampleRecords()
    ensures Map(["delicious", "overpriced"], StampRow(Row(Some("Delicious food but overpriced drinks"), 0.6, 0.4)))
      == [Record("delicious", 0.6, 0.4), Record("overpriced", 0.6, 0.4)]
  {
    var stamped := Map(["delicious", "overpriced"], StampRow(Row(Some("Delicious food but overpriced drinks"), 0.6, 0.4)));
    assert stamped[0] == Record("delicious", 0.6, 0.4);
    assert stamped[1] == Record("overpriced", 0.6, 0.4);
  }

  lemma ExampleBodyMatches()
    ensures ContainsIgnoringCase("Delicious food but overpriced drinks", "delicious")
    ensures ContainsIgnoringCase("Delicious food but overpriced drinks", "overpriced")
  {
    ExampleFoundAtStart();
    ExampleFoundInside();
  }

  lemma ExampleFoundAtStart()
    ensures ContainsIgnoringCase("Delicious food but overpriced drinks", "delicious")
  {
    assert Lower("Delicious") == "delicious";
    assert OccursAt(Lower("delicious"), Lower("Delicious"), 0);
    FoundInPartFoundInWhole("", "Delicious", " food but overpriced drinks", "delicious");
    ExampleBodySplit();
  }

  lemma ExampleFoundInside()
    ensures ContainsIgnoringCase("Delicious food but overpriced drinks", "overpriced")
  {
    FoundInItself("overpriced");
    FoundInPartFoundInWhole("Delicious food but ", "overpriced", " drinks", "overpriced");
    ExampleBodySplit();
  }

  /** The two ways the example body is cut into a keyword and its surroundings. */
  lemma ExampleBodySplit()
    ensures "" + "Delicious" + " food but overpriced drinks" == "Delicious food but overpriced drinks"
    ensures "Delicious food but " + "overpriced" + " drinks" == "Delicious food but overpriced drinks"
  {
  }

  /** A body naming no keyword yields no record. */
  lemma ExampleNoKeyword()
    ensures Tag(["delicious"], [Row(Some("Terrible wait"), 0.0, -1.0)]) == []
  {
    var row := Row(Some("Terrible wait"), 0.0, -1.0);
    var low := Lower("Terrible wait");
    assert "Terrible wait" == "Terri" + "ble wait";
    LowerAppend("Terri", "ble wait");
    assert Lower("Terri") == "terri";
    assert Lower("delicious")[0] == 'd';
    forall i: nat | i + 9 <= |low|
      ensures !OccursAt(Lower("delicious"), low, i)
    {
      assert low[i] == "terri"[i];
      assert low[i..i + 9][0] == low[i];
    }
    FanOut(["delicious"], row);
    SelectNone(["delicious"], MatchedBy(row));
  }
}

=== FILE: text.dfy ===
/** Case-insensitive substring search on review text: the test
    `str.contains(word, case=False)` makes of every review body. Text is a
    sequence of characters; case folding is ASCII only. */
module Text {

  /** An ASCII capital letter. */
  predicate IsUpper(c: char) {
    'A' <= c <= 'Z'
  }

  /** The lower-case form of one character: ASCII capitals move down by 32,
      everything else is left alone. */
  function LowerChar(c: char): (d: char)
    ensures !IsUpper(d)
    ensures !IsUpper(c) ==> d == c
    ensures IsUpper(c) ==> 'a' <= d <= 'z' && d as int - c as int == 32
  {
    if IsUpper(c) then (c as int + 32) as char else c
  }

  /** The lower-case form of a string. */
  function Lower(s: string): (r: string)
    ensures |r| == |s|
    ensures forall k :: 0 <= k < |s| ==>
      !IsUpper(r[k]) &&
      (IsUpper(s[k]) ==> r[k] as int == s[k] as int + 32) &&
      (!IsUpper(s[k]) ==> r[k] == s[k])
  {
    seq(|s|, k requires 0 <= k < |s| => LowerChar(s[k]))
  }

  /** Lower-casing twice is lower-casing once. */
  lemma LowerIdempotent(s: string)
    ensures Lower(Lower(s)) == Lower(s)
  {
  }

  /** Lower-casing works character by character, so it distributes over concatenation. */
  lemma LowerAppend(a: string, b: string)
    ensures Lower(a + b) == Lower(a) + Lower(b)
  {
  }

  /** `pat` sits in `text` starting at position `i`. */
  predicate OccursAt(pat: string, text: string, i: nat) {
    i + |pat| <= |text| && text[i..i + |pat|] == pat
  }

  /** `pat` sits somewhere in `text`: the reference meaning of containment. */
  ghost predicate IsSubstring(pat: string, text: string) {
    exists i: nat :: OccursAt(pat, text, i)
  }

  /** Left-to-right scan for `pat` in `text`, trying start positions from `i`
      on. It answers whether `pat` occurs at some position `i` or later. */
  function SearchFrom(pat: string, text: string, i: nat): (found: bool)
    decreases |text| - i
    ensures found <==> exists k: nat :: i <= k && OccursAt(pat, text, k)
  {
    if i + |pat| > |text| then false
    else if OccursAt(pat, text, i) then true
    else
      var rest := SearchFrom(pat, text, i + 1);
      assert forall k: nat :: i <= k && OccursAt(pat, text, k) ==> k == i || i + 1 <= k;
      rest
  }

  /** Plain (case-sensitive) containment of `pat` in `text`. */
  function Contains(text: string, pat: string): (found: bool)
    ensures found <==> IsSubstring(pat, text)
  {
    SearchFrom(pat, text, 0)
  }

  /** Case-insensitive containment: both sides are lower-cased first. */
  function ContainsIgnoringCase(text: string, word: string): (found: bool)
    ensures found <==> IsSubstring(Lower(word), Lower(text))
  {
    Contains(Lower(text), Lower(word))
  }

  /** The empty word is found in every text. */
  lemma EmptyWordAlwaysFound(text: string)
    ensures ContainsIgnoringCase(text, "")
  {
    assert OccursAt(Lower(""), Lower(text), 0);
  }

  /** Every word is found in itself. */
  lemma FoundInItself(word: string)
    ensures ContainsIgnoringCase(word, word)
  {
    assert OccursAt(Lower(word), Lower(word), 0);
  }

  /** A word longer than the text is never found in it. */
  lemma LongerWordNeverFound(text: string, word: string)
    requires |word| > |text|
    ensures !ContainsIgnoringCase(text, word)
  {
  }

  /** Lower-casing the text or the word before the search does not change
      whether the word is found. */
  lemma {:induction false} CaseDoesNotMatter(text: string, word: string)
    ensures ContainsIgnoringCase(Lower(text), word) == ContainsIgnoringCase(text, word)
    ensures ContainsIgnoringCase(text, Lower(word)) == ContainsIgnoringCase(text, word)
  {
    LowerIdempotent(text);
    LowerIdempotent(word);
  }

  /** A word found in a piece of a text is found in the whole text. */
  lemma {:induction false} FoundInPartFoundInWhole(prefix: string, part: string, suffix: string, word: string)
    requires ContainsIgnoringCase(part, word)
    ensures ContainsIgnoringCase(prefix + part + suffix, word)
  {
    var w, p := Lower(word), Lower(part);
    var i: nat :| OccursAt(w, p, i);
    LowerAppend(prefix + part, suffix);
    LowerAppend(prefix, part);
    OccursInConcat(w, Lower(prefix), p, Lower(suffix), i);
  }

  /** An occurrence in the middle piece is an occurrence in the whole, shifted
      by the length of the first piece. */
  lemma OccursInConcat(pat: string, a: string, b: string, c: string, i: nat)
    requires OccursAt(pat, b, i)
    ensures OccursAt(pat, a + b + c, |a| + i)
  {
    assert (a + b + c)[|a| + i..|a| + i + |pat|] == b[i..i + |pat|];
  }
}

=== FILE: wrappers.dfy ===
/** An optional value (a NaN cell of the data frame may be missing) and a
    value-or-error result (the callback may raise instead of returning). */
module Wrappers {

  /** A value that may be absent. */
  datatype Option<+T> = None | Some(value: T)

  /** Either a value or the error the Python code would raise instead. */
  datatype Result<+R, +E> = Success(value: R) | Failure(error: E)
}
